=== FILE: README.md ===
# Snake game: a Dafny model of the game-state machine

This project models the game logic of a single-file turtle snake game
(`snake_game.py`). What the program keeps in module-level variables and
turtle positions becomes one immutable `GameState` record:

- the mode (start screen, playing, paused, game over);
- the head position and its heading (`Stop` until the first arrow key);
- the body segments, nearest to the head first;
- the food position;
- the score and the high score;
- the frame pause.

Every key handler and one frame of the main loop are pure functions over
that record.

- `geometry.dfy` (module `Geometry`): positions, headings, the one-cell move,
  the wall test and the "closer than 20 units" test. The test is written on
  squared integer distance (`< 400`).
- `game.dfy` (module `Game`): the state record, the handlers for the arrow
  keys, the pause key and the start key (with the reset), the `move()` step,
  the state change of the game-over handler (`EndGame`), the meal, the
  tail-to-head shift of the segments (both as the game's loop
  and as a function), the self-collision scan, and `Tick`, one frame while
  playing.
- `invariants.dfy` (module `Invariants`): the well-formedness predicate
  `Valid`. It holds at start-up and every transition keeps it. It ties the
  score and the speed to the body length, keeps the high score at least the
  score, keeps the head and segments on the 20-unit grid and the food inside
  the walls, and keeps a snake without a
  heading alone at the centre. The module also characterises one frame
  declaratively: when the snake eats, how the body changes, and exactly when
  the game ends.
- `session.dfy` (module `Session`): a session as a sequence of events (key
  presses and frames) applied one at a time, with what every reached state
  satisfies.
- `scenarios.dfy` (module `Scenarios`): short concrete games that fix the
  observable order of a frame.

A frame follows the program's own order:

1. The wall check, on the head before it moves.
2. The food check, which runs even when step 1 has just ended the game. On a
   meal the food is relocated, a segment is appended, and the score, speed
   and high score are updated.
3. The shift of the segments from the tail towards the head, with segment 0
   taking the head's position.
4. `move()`, which does nothing once step 1 has ended the game.
5. The self-collision scan.

The frame pause is kept in integer milliseconds: 100 at the start, 5 less per
meal, never below 50. This stands for 0.1 s, 0.005 s and 0.05 s.

Two consequences of this order are easy to miss, because both checks read the
head before it moves:

- A head may step one cell past a wall. The wall check catches it on the next
  frame, and the head does not move on that frame
  (`Scenarios.WallHitOneFrameLate`).
- A head that moves onto the food does not eat it on that frame. The meal is
  scored one frame after the head reaches the food
  (`Scenarios.MealOneFrameAfterArrival`).

The arrow keys refuse only the reverse of the current heading, and key presses
are handled between frames. So two keys pressed before the next frame can
reverse the snake. Take a snake that has moved up with at least two segments
behind its head. Left then down aims its head at the segment right behind it,
and the next frame ends the game (`Session.TwoKeysReverseBetweenFrames`). In
general the frame ends the game when there are at least two segments and
segment 0 lies one cell ahead along the new heading
(`Session.TurnIntoNeckCollides`). With a single segment and no meal on that
frame, the shift moves the segment out of the way first, and the game goes on
(`Session.OneSegmentSurvivesReversal`).

## Model

| member | source | states |
|---|---|---|
| Geometry.Opposite | snake_game.py:87-105 | each arrow key is blocked by exactly one other heading; `Stop` is opposite only to itself |
| Geometry.Moved | snake_game.py:156-179 | a move displaces the head by exactly one cell (20 units) along one axis, with the sign of the heading, and not at all for `Stop` |
| Geometry.OppositeInvolutive | snake_game.py:87-105 | the reverse of the reverse heading is the heading itself, so the four arrow-key guards block each other in pairs |
| Geometry.MovedThenBack | snake_game.py:156-176 | moving one cell and then one cell the opposite way returns to the start |
| Geometry.MovedStaysOnGrid | snake_game.py:156-176 | moves keep the head's coordinates multiples of 20 |
| Geometry.NearOnGridIsEqual | snake_game.py:289 | for grid-aligned points, "distance below 20" holds exactly when the points are equal |
| Geometry.NearWithinCell | snake_game.py:241 | the "closer than 20" test is symmetric, needs both coordinates less than 20 apart, and for two points in one row or column is exactly "less than 20 apart" |
| Geometry.LeavesOnlyFromBorder | snake_game.py:237 | a grid head inside the walls is at most one cell past them after a move, and leaves the walls only from a border cell |
| Geometry.OutsideIsFarFromInside | snake_game.py:237-241 | a grid head at most one cell past a wall is at least 20 from any food inside the walls |
| Game.Init | snake_game.py:6-65 | the state at window opening is the start screen with high score 0 and pause 100; its head, body, score and food are what a reset puts back, and the start key only switches it to playing |
| Game.RequestDirection | snake_game.py:87-105 | an arrow key changes only the heading; it takes effect exactly while playing and when it does not reverse the current heading; a heading never becomes the reverse of a non-`Stop` heading |
| Game.TogglePause | snake_game.py:107-116 | the pause key changes only the mode; it swaps playing and paused and is ignored on the start screen and after a game over |
| Game.Reset | snake_game.py:127-147 | the reset puts the head at the centre with no heading, clears the body, zeroes the score and puts the food back at (0,100); mode, high score and speed are untouched |
| Game.StartGame | snake_game.py:118-125 | from the start screen or game over: playing, head at the centre, no heading, empty body, score 0, food at (0,100), speed back to the start value; ignored while playing or paused; the high score never changes |
| Game.EndGame | snake_game.py:182-185 | the game-over handler changes only the mode, to game over |
| Game.Move | snake_game.py:150-179 | `move()` changes only the head; while playing it moves the head one cell along the current heading (20 units, with the heading's axis and sign), and otherwise does nothing |
| Game.Accelerate | snake_game.py:258 | a meal lowers the pause by exactly one step when that stays at or above the floor, and otherwise sets it to the floor; it never raises a pause that is at least the floor |
| Game.Consume | snake_game.py:241-261 | a meal moves the food to the drawn cell, appends one segment after the existing ones, adds 10 to the score, shortens the pause by one step down to the floor of 50, and raises the high score to the score when the score exceeds it |
| Game.Shift | snake_game.py:266-279 | the follow-the-leader shift keeps the length, puts segment 0 on the head and every later segment on its predecessor's old place |
| Game.ShiftSegments | snake_game.py:266-279 | the game's tail-to-head loop followed by the move of segment 0 computes exactly `Shift` |
| Game.Collides | snake_game.py:288-290 | the scan finds a hit exactly when some segment is closer than 20 to the head |
| Game.Tick | snake_game.py:218-292 | a frame changes nothing unless playing; while playing it ends playing or game over, keeps the heading, never lowers the high score, never raises a pause that is at least the floor, and moves the head by at most one cell |
| Invariants.SpeedAfter | snake_game.py:258 | the pause after n meals since the last start is 100 - 5n while that is at least the floor, and the floor otherwise; it always lies between the floor and the start value |
| Invariants.InitValid | snake_game.py:6-65 | the state at window opening is the start screen and is well-formed |
| Invariants.AccelerateSpeedAfter | snake_game.py:258 | one more meal takes the pause after n meals to the pause after n+1 meals |
| Invariants.SpeedAfterMonotone | snake_game.py:258 | more meals never mean a longer pause |
| Invariants.RequestDirectionKeepsValid | snake_game.py:87-105 | arrow keys keep a well-formed state well-formed |
| Invariants.StoppedAcceptsAnyHeading | snake_game.py:87-105 | while playing without a heading every arrow key is accepted |
| Invariants.TogglePauseKeepsValid | snake_game.py:107-116 | the pause key keeps a well-formed state well-formed |
| Invariants.TogglePauseTwice | snake_game.py:107-116 | pressing the pause key twice restores the state |
| Invariants.StartGameValid | snake_game.py:118-147 | a start from the start screen or game over yields a well-formed state from any state; an ignored start keeps well-formedness |
| Invariants.StartGameTwice | snake_game.py:118-125 | a second start key press right after a start changes nothing |
| Invariants.EndGameKeepsValid | snake_game.py:182-185 | ending the game keeps a well-formed state well-formed and keeps score, body and high score |
| Invariants.ShiftAfterAppend | snake_game.py:248-279 | after a meal the body is the old head followed by the whole old body, whatever position the appended segment had |
| Invariants.ShiftWithoutAppend | snake_game.py:266-279 | without a meal a non-empty body becomes the old head followed by the old body without its last segment |
| Invariants.TickMeal | snake_game.py:241-279 | the snake eats exactly when the head before moving is closer than 20 to the food; then the body is the old head plus the old body, the food is the drawn cell, the score is up by 10, the pause shortened and the high score is the larger of the old high score and the score; otherwise body shifts and nothing else in the scoring changes |
| Invariants.TickOutcome | snake_game.py:236-290 | a frame ends in game over exactly when the head before moving is past a wall, or the moved head is closer than 20 to a segment; the head moves only if it was inside the walls |
| Invariants.TickBodyFromOld | snake_game.py:266-279 | after a frame the first segment is the old head and every later segment is the old segment before it |
| Invariants.TickKeepsPlaced | snake_game.py:236-290 | a frame keeps head and segments on the grid, the head within one cell past the walls, and the food inside the walls |
| Invariants.TickKeepsCounted | snake_game.py:241-261 | a frame keeps the score at 10 per segment, at most the high score, and the pause as fixed by the segment count |
| Invariants.TickKeepsStandsAtStart | snake_game.py:131-179 | a snake with no heading stays alone at the centre with the food at its start cell |
| Invariants.TickKeepsValid | snake_game.py:218-292 | a frame keeps a well-formed state well-formed |
| Invariants.TickGameOverIff | snake_game.py:236-290 | for well-formed states a frame ends the game exactly when the head before moving is past a wall or the moved head lies on a segment |
| Invariants.WallHitFrame | snake_game.py:237-285 | a frame that finds the head past a wall ends the game, leaves the head where it is, eats nothing and still shifts the body |
| Invariants.StartFoodIsFar | snake_game.py:130-147 | the food's start cell is not within 20 of the centre |
| Invariants.StoppedFrameChangesNothing | snake_game.py:177-179 | for a snake standing alone at the centre with the food at (0,100), a frame while playing without a heading leaves the state unchanged |
| Invariants.SelfCollisionIsGenuine | snake_game.py:266-290 | a self-collision inside the walls is with a segment that existed before the frame, never with the old head's position |
| Session.Apply | snake_game.py:198-204 | no key press or frame lowers the high score; arrow keys and the pause key never change the speed, and the start key changes it only to the start value |
| Session.Run | snake_game.py:215-304 | the high score never decreases over a session |
| Session.ApplyKeepsValid | snake_game.py:198-204 | every admissible event keeps a well-formed state well-formed |
| Session.RunKeepsValid | snake_game.py:215-304 | a session keeps a well-formed state well-formed |
| Session.SessionFromInit | snake_game.py:215-304 | every state reached from the opening screen has score 10 per segment, score at most the high score, and pause between 50 and 100 |
| Session.PausedIgnoresAllButPauseKey | snake_game.py:302-304 | while paused, frames, arrow keys and the start key change nothing; only the pause key acts |
| Session.OnlyStartLeavesGameOver | snake_game.py:294-300 | on the start screen or after a game over, only the start key changes the state |
| Session.TurnIntoNeckCollides | snake_game.py:266-290 | a head heading straight at the segment right behind it, with at least two segments, ends the game on the next frame, landing on that segment |
| Session.OneSegmentSurvivesReversal | snake_game.py:266-290 | with one segment and no meal, a frame with the head inside the walls never ends in self-collision, whatever the heading: the segment moves to the old head |
| Session.TwoKeysReverseBetweenFrames | snake_game.py:87-105 | a single reversing key is refused, yet two keys between frames reverse the snake and the next frame ends the game |
| Scenarios.IdleAfterStart | snake_game.py:118-179 | after the start key with no arrow key, frames leave the head at the centre and the game running |
| Scenarios.ArriveAtFood | snake_game.py:241-285 | a head one cell from the food moves onto it without eating |
| Scenarios.EatOnFood | snake_game.py:241-290 | a lone head inside the walls, on the food and heading right, eats it: the game goes on, score and high score 10, one segment where the head was, food at the drawn cell, pause 95, head one cell right |
| Scenarios.MealOneFrameAfterArrival | snake_game.py:241-285 | the meal is scored one frame after the head reaches the food |
| Scenarios.WallHitOneFrameLate | snake_game.py:237-285 | stepping one cell past a wall is allowed; the following frame ends the game without moving the head |
| Scenarios.RestartKeepsHighScore | snake_game.py:118-147 | a restart after a game over clears score, body and speed but keeps the high score |

## Left out

- Rendering: the screen, border, eyes, shapes and sizes, the score and
  message pens, and showing or hiding turtles. These are drawing calls with
  no effect on the game state.
- The food blink counter and colour. It is cosmetic only.
- `time.sleep`, `screen.update`, `mainloop` and the `while True` loop. A
  session is modelled as a sequence of events applied one by one (`Session.Run`).
- Keyboard bindings and the asynchronous arrival of key presses. Each key
  press is an atomic event between frames.
- `random.randint`. The food cell a meal draws is a parameter of `Tick`,
  restricted to [-280, 280] on both axes, the range of the draws.
- Floating point. The frame pause is integer milliseconds, so rounding in
  repeated `0.1 - 0.005` subtractions is not modelled. Euclidean distance is
  replaced by exact integer squared distance. For integer coordinates,
  distance below 20 is the same as squared distance below 400.

=== FILE: game.dfy ===
/** The game-state machine of the snake game: one immutable record holding what
    the program keeps in module-level variables and turtle positions, and one
    pure function per input handler plus one for a frame of the main loop. */
module Game {
  import opened Geometry

  datatype Mode = Start | Playing | Paused | GameOver

  /** `body` lists the segments behind the head, nearest first; `speed` is the
      pause between frames in milliseconds. */
  datatype GameState = GameState(
    mode: Mode,
    head: Pos,
    direction: Direction,
    body: seq<Pos>,
    food: Pos,
    score: nat,
    highScore: nat,
    speed: int)

  /** Where the food is placed at start-up and on every (re)start. */
  const InitialFood: Pos := Pos(0, 100)
  const PointsPerFood: nat := 10
  /** Frame pause at start-up and on every (re)start (0.1 s). */
  const BaseSpeed: int := 100
  /** Each meal shortens the frame pause by this much (0.005 s) ... */
  const SpeedStep: int := 5
  /** ... but never below this floor (0.05 s). */
  const MinSpeed: int := 50

  /** The state when the window first opens: start screen, nothing eaten yet.
      Its head, body, score and food are exactly what a reset puts back, and the
      start key turns it into a game without changing anything else. */
  function Init(): (r: GameState)
    ensures r.mode == Start && r.highScore == 0 && r.speed == BaseSpeed
    ensures Reset(r) == r
    ensures StartGame(r) == r.(mode := Playing)
  {
    GameState(Start, Origin, Stop, [], InitialFood, 0, 0, BaseSpeed)
  }

  /** One of the four arrow-key handlers: while playing, take the requested
      heading unless it reverses the current one; otherwise ignore the key. */
  function RequestDirection(s: GameState, d: Direction): (r: GameState)
    requires d != Stop
    ensures r == s.(direction := r.direction)
    ensures r.direction == d <==> s.direction == d || (s.mode == Playing && d != Opposite(s.direction))
    ensures r.direction != d ==> r == s
    ensures s.direction != Stop ==> r.direction != Opposite(s.direction)
  {
    if s.mode == Playing && s.direction != Opposite(d) then s.(direction := d) else s
  }

  /** The pause key: Playing and Paused swap, the other modes ignore it. */
  function TogglePause(s: GameState): (r: GameState)
    ensures r == s.(mode := r.mode)
    ensures r.mode == Paused <==> s.mode == Playing
    ensures r.mode == Playing <==> s.mode == Paused
    ensures s.mode == Start || s.mode == GameOver ==> r == s
  {
    match s.mode
    case Playing => s.(mode := Paused)
    case Paused => s.(mode := Playing)
    case _ => s
  }

  /** Put head, body, score and food back to their start values. Leaves the
      mode, the high score and the speed alone. */
  function Reset(s: GameState): (r: GameState)
    ensures r.mode == s.mode && r.highScore == s.highScore && r.speed == s.speed
    ensures r.head == Origin && r.direction == Stop && r.body == []
    ensures r.score == 0 && r.food == InitialFood
  {
    s.(head := Origin, direction := Stop, body := [], score := 0, food := InitialFood)
  }

  /** The start/restart key: from the start screen or after a game over, begin
      a fresh game keeping the high score; ignored while playing or paused. */
  function StartGame(s: GameState): (r: GameState)
    ensures r.highScore == s.highScore
    ensures s.mode == Playing || s.mode == Paused ==> r == s
    ensures s.mode == Start || s.mode == GameOver ==>
              && r.mode == Playing && r.head == Origin && r.direction == Stop
              && r.body == [] && r.score == 0 && r.food == InitialFood
              && r.speed == BaseSpeed
  {
    if s.mode == Start || s.mode == GameOver then
      Reset(s).(mode := Playing, speed := BaseSpeed)
    else
      s
  }

  /** The state part of the game-over handler. */
  function EndGame(s: GameState): (r: GameState)
    ensures r.mode == GameOver
    ensures r == s.(mode := r.mode)
  {
    s.(mode := GameOver)
  }

  /** Advance the head one cell along its heading, only while playing. */
  function Move(s: GameState): (r: GameState)
    ensures r == s.(head := r.head)
    ensures s.mode != Playing || s.direction == Stop ==> r == s
    ensures s.mode == Playing && s.direction != Stop ==> Manhattan(s.head, r.head) == Cell
    ensures s.mode == Playing ==> r.head == Moved(s.head, s.direction)
  {
    if s.mode != Playing then s else s.(head := Moved(s.head, s.direction))
  }

  /** The shortened frame pause after a meal. */
  function Accelerate(speed: int): (r: int)
    ensures r >= MinSpeed
    ensures r == MinSpeed || r == speed - SpeedStep
    ensures speed - SpeedStep >= MinSpeed ==> r == speed - SpeedStep
    ensures speed > MinSpeed ==> r < speed
    ensures speed >= MinSpeed ==> r <= speed
  {
    if speed - SpeedStep > MinSpeed then speed - SpeedStep else MinSpeed
  }

  /** Eating: the food jumps to `spawn`, a new segment is appended at the
      position a fresh turtle starts at (the origin), the score goes up, the
      game speeds up and the high score follows the score. */
  function Consume(s: GameState, spawn: Pos): (r: GameState)
    ensures r.mode == s.mode && r.head == s.head && r.direction == s.direction
    ensures r.food == spawn
    ensures r.score == s.score + PointsPerFood
    ensures |r.body| == |s.body| + 1 && r.body[..|s.body|] == s.body
    ensures r.highScore >= s.highScore && r.highScore >= r.score
    ensures r.highScore == s.highScore || r.highScore == r.score
    ensures r.speed == Accelerate(s.speed)
  {
    var score := s.score + PointsPerFood;
    s.(food := spawn,
       body := s.body + [Origin],
       score := score,
       speed := Accelerate(s.speed),
       highScore := if score > s.highScore then score else s.highScore)
  }

  /** Where the segments end up after the follow-the-leader shift: each
      segment takes its predecessor's old place and the first takes `head`. */
  function Shift(segs: seq<Pos>, head: Pos): (r: seq<Pos>)
    ensures |r| == |segs|
    ensures |r| > 0 ==> r[0] == head
    ensures forall i :: 0 < i < |r| ==> r[i] == segs[i - 1]
  {
    if |segs| == 0 then [] else [head] + segs[..|segs| - 1]
  }

  /** The shift as the game performs it: walk from the tail towards the head,
      copying each segment's predecessor into it, then put segment 0 on `head`. */
  method ShiftSegments(segs: seq<Pos>, head: Pos) returns (r: seq<Pos>)
    ensures r == Shift(segs, head)
  {
    r := segs;
    var index := |r| - 1;
    while index > 0
      invariant |r| == |segs|
      invariant index < |segs|
      invariant |segs| > 0 ==> index >= 0
      invariant forall k :: 0 <= k <= index ==> r[k] == segs[k]
      invariant forall k :: 0 < k < |r| && index < k ==> r[k] == segs[k - 1]
      decreases index
    {
      r := r[index := r[index - 1]];
      index := index - 1;
    }
    if |r| > 0 {
      r := r[0 := head];
    }
  }

  /** Whether some segment lies closer than one cell to `head`. */
  function Collides(segs: seq<Pos>, head: Pos): (r: bool)
    ensures r <==> exists i :: 0 <= i < |segs| && Near(segs[i], head)
  {
    if |segs| == 0 then false
    else Near(segs[0], head) || Collides(segs[1..], head)
  }

  /** One frame of the main loop while playing; any other mode leaves the state
      alone. `spawn` stands for the two random draws that place new food.
      The order of the steps is the game's own and is observable: the wall
      check looks at the head before it moves, a wall hit does not stop the
      food check or the shift but does stop the move. */
  function Tick(s: GameState, spawn: Pos): (r: GameState)
    requires InBounds(spawn)
    ensures s.mode != Playing ==> r == s
    ensures s.mode == Playing ==> r.mode == Playing || r.mode == GameOver
    ensures r.direction == s.direction
    ensures r.highScore >= s.highScore
    ensures s.speed >= MinSpeed ==> MinSpeed <= r.speed <= s.speed
    ensures Manhattan(s.head, r.head) <= Cell
  {
    if s.mode != Playing then s
    else
      var s1 := if InBounds(s.head) then s else EndGame(s);
      var s2 := if Near(s1.head, s1.food) then Consume(s1, spawn) else s1;
      var s3 := s2.(body := Shift(s2.body, s2.head));
      var s4 := Move(s3);
      if Collides(s4.body, s4.head) then EndGame(s4) else s4
  }
}

=== FILE: geometry.dfy ===
/** Board geometry of the snake game: grid positions, headings, one-cell moves
    and the "closer than one cell" test the game uses both for eating food and
    for running into its own body. */
module Geometry {

  /** Side of one grid cell, in screen units; every move is one cell. */
  const Cell: int := 20

  /** The playable area is [-HalfExtent, HalfExtent] on both axes. */
  const HalfExtent: int := 280

  datatype Pos = Pos(x: int, y: int)

  /** Centre of the board, where the head starts. */
  const Origin: Pos := Pos(0, 0)

  /** Current heading of the snake; `Stop` only before the first key press. */
  datatype Direction = Stop | Up | Down | Left | Right

  function Abs(n: int): nat
  {
    if n < 0 then -n else n
  }

  /** Number of screen units between two positions along the grid axes. */
  function Manhattan(p: Pos, q: Pos): nat
  {
    Abs(p.x - q.x) + Abs(p.y - q.y)
  }

  /** The heading that undoes `d`; `Stop` is its own opposite. */
  function Opposite(d: Direction): (o: Direction)
    ensures o == Stop <==> d == Stop
    ensures d != Stop ==> o != d
  {
    match d
    case Stop => Stop
    case Up => Down
    case Down => Up
    case Left => Right
    case Right => Left
  }

  lemma OppositeInvolutive(d: Direction)
    ensures Opposite(Opposite(d)) == d
  {
  }

  /** The position one cell further along `d` (unchanged for `Stop`). Up is +y. */
  function Moved(p: Pos, d: Direction): (q: Pos)
    ensures q == p <==> d == Stop
    ensures d != Stop ==> Manhattan(p, q) == Cell
    ensures (d == Up || d == Down) ==> q.x == p.x
    ensures (d == Left || d == Right) ==> q.y == p.y
    ensures d == Up ==> q.y > p.y
    ensures d == Down ==> q.y < p.y
    ensures d == Right ==> q.x > p.x
    ensures d == Left ==> q.x < p.x
  {
    match d
    case Stop => p
    case Up => Pos(p.x, p.y + Cell)
    case Down => Pos(p.x, p.y - Cell)
    case Left => Pos(p.x - Cell, p.y)
    case Right => Pos(p.x + Cell, p.y)
  }

  /** Moving one cell and then one cell the opposite way returns to the start. */
  lemma MovedThenBack(p: Pos, d: Direction)
    ensures Moved(Moved(p, d), Opposite(d)) == p
  {
  }

  /** Both coordinates are whole multiples of the cell size. */
  predicate OnGrid(p: Pos)
  {
    p.x % Cell == 0 && p.y % Cell == 0
  }

  lemma MovedStaysOnGrid(p: Pos, d: Direction)
    requires OnGrid(p)
    ensures OnGrid(Moved(p, d))
  {
  }

  /** Inside the walls: the border check lets a coordinate equal to the extent through. */
  predicate InBounds(p: Pos)
  {
    -HalfExtent <= p.x <= HalfExtent && -HalfExtent <= p.y <= HalfExtent
  }

  /** At most one cell beyond the walls on each axis. */
  predicate InReach(p: Pos)
  {
    Abs(p.x) <= HalfExtent + Cell && Abs(p.y) <= HalfExtent + Cell
  }

  function Square(a: int): nat
  {
    a * a
  }

  function SqDist(p: Pos, q: Pos): nat
  {
    Square(p.x - q.x) + Square(p.y - q.y)
  }

  /** Euclidean distance below one cell, stated on squares to stay in integers. */
  predicate Near(p: Pos, q: Pos)
  {
    SqDist(p, q) < Cell * Cell
  }

  lemma SquareAtLeastCell(a: int)
    requires Abs(a) >= Cell
    ensures Square(a) >= Cell * Cell
  {
    var b := Abs(a);
    assert Square(a) == b * b;
    assert b * b >= Cell * b;
  }

  /** Two multiples of the cell size are equal or at least one cell apart. */
  lemma GridGap(a: int, b: int)
    requires a % Cell == 0 && b % Cell == 0
    ensures a == b || Abs(a - b) >= Cell
  {
    var k := a / Cell;
    var m := b / Cell;
    assert a == Cell * k;
    assert b == Cell * m;
    assert a - b == Cell * (k - m);
  }

  /** For grid-aligned points, "closer than one cell" is the same as equality. */
  lemma NearOnGridIsEqual(p: Pos, q: Pos)
    requires OnGrid(p) && OnGrid(q)
    ensures Near(p, q) <==> p == q
  {
    GridGap(p.x, q.x);
    GridGap(p.y, q.y);
    if p.x != q.x {
      SquareAtLeastCell(p.x - q.x);
    } else if p.y != q.y {
      SquareAtLeastCell(p.y - q.y);
    }
  }

  /** On one axis: a multiple of the cell size past the wall but within a cell of
      it is a full cell away from any coordinate inside the walls. */
  lemma AxisOutsideIsFar(a: int, b: int)
    requires a % Cell == 0 && Abs(a) <= HalfExtent + Cell
    requires a > HalfExtent || a < -HalfExtent
    requires -HalfExtent <= b <= HalfExtent
    ensures Square(a - b) >= Cell * Cell
  {
    GridGap(a, HalfExtent + Cell);
    GridGap(a, -(HalfExtent + Cell));
    assert Abs(a - b) >= Cell;
    SquareAtLeastCell(a - b);
  }

  /** A grid point past a wall, but within one cell of it, is at least a cell
      away from every point inside the walls. */
  lemma OutsideIsFarFromInside(p: Pos, q: Pos)
    requires OnGrid(p) && InReach(p) && !InBounds(p)
    requires InBounds(q)
    ensures !Near(p, q)
  {
    if p.x > HalfExtent || p.x < -HalfExtent {
      AxisOutsideIsFar(p.x, q.x);
    } else {
      AxisOutsideIsFar(p.y, q.y);
    }
  }

  lemma SquareBelowCell(a: int)
    requires Abs(a) < Cell
    ensures Square(a) < Cell * Cell
  {
    var b := Abs(a);
    assert Square(a) == b * b;
    assert b * b <= (Cell - 1) * b;
  }

  /** What "closer than one cell" means on each axis: it is symmetric, it needs
      both coordinates less than a cell apart, and for two points in one row or
      one column it is exactly "less than a cell apart". */
  lemma NearWithinCell(p: Pos, q: Pos)
    ensures Near(p, q) <==> Near(q, p)
    ensures Near(p, q) ==> Abs(p.x - q.x) < Cell && Abs(p.y - q.y) < Cell
    ensures p.y == q.y ==> (Near(p, q) <==> Abs(p.x - q.x) < Cell)
    ensures p.x == q.x ==> (Near(p, q) <==> Abs(p.y - q.y) < Cell)
  {
    assert Square(p.x - q.x) == Square(q.x - p.x);
    assert Square(p.y - q.y) == Square(q.y - p.y);
    if Abs(p.x - q.x) >= Cell {
      SquareAtLeastCell(p.x - q.x);
    } else {
      SquareBelowCell(p.x - q.x);
    }
    if Abs(p.y - q.y) >= Cell {
      SquareAtLeastCell(p.y - q.y);
    } else {
      SquareBelowCell(p.y - q.y);
    }
  }

  /** A grid head inside the walls is at most one cell past them after a move,
      and it leaves the walls only by stepping off a border cell. */
  lemma LeavesOnlyFromBorder(p: Pos, d: Direction)
    requires OnGrid(p) && InBounds(p)
    ensures InReach(Moved(p, d))
    ensures !InBounds(Moved(p, d)) ==> Abs(p.x) == HalfExtent || Abs(p.y) == HalfExtent
  {
    GridGap(p.x, HalfExtent);
    GridGap(p.x, -HalfExtent);
    GridGap(p.y, HalfExtent);
    GridGap(p.y, -HalfExtent);
  }
}

=== FILE: invariants.dfy ===
/** What every reachable game state satisfies, why each transition keeps it,
    and what one frame of the main loop does, stated declaratively. */
module Invariants {
  import opened Geometry
  import opened Game

  /** The frame pause after `meals` meals since the last (re)start. */
  function SpeedAfter(meals: nat): (r: int)
    ensures MinSpeed <= r <= BaseSpeed
    ensures r == MinSpeed || r == BaseSpeed - SpeedStep * meals
    ensures BaseSpeed - SpeedStep * meals >= MinSpeed ==> r == BaseSpeed - SpeedStep * meals
  {
    if BaseSpeed - SpeedStep * meals > MinSpeed then BaseSpeed - SpeedStep * meals else MinSpeed
  }

  /** The well-formedness of a game state:
      - head and segments lie on the grid, the head at most one cell past a wall;
      - food lies inside the walls;
      - score, body length and speed are tied together by the number of meals;
      - the high score is at least the score;
      - while the snake has no heading yet it sits alone at the centre with the
        food at its start cell (which is what keeps a standing head from being
        reported as running into its own first segment). */
  ghost predicate Valid(s: GameState)
  {
    Placed(s) && Counted(s) && StandsAtStart(s)
  }

  /** Positions: the grid, the walls and the one-cell margin past them. */
  ghost predicate Placed(s: GameState)
  {
    && OnGrid(s.head) && InReach(s.head)
    && (forall i :: 0 <= i < |s.body| ==> OnGrid(s.body[i]))
    && InBounds(s.food)
  }

  /** Score, body length, speed and high score agree on the number of meals. */
  ghost predicate Counted(s: GameState)
  {
    && s.score == PointsPerFood * |s.body|
    && s.score <= s.highScore
    && s.speed == SpeedAfter(|s.body|)
  }

  /** Without a heading the snake sits alone at the centre, food at its start cell. */
  ghost predicate StandsAtStart(s: GameState)
  {
    s.direction == Stop ==> s.head == Origin && s.body == [] && s.food == InitialFood
  }

  lemma InitValid()
    ensures Init().mode == Start
    ensures Valid(Init())
  {
  }

  /** One more meal shortens the pause exactly as the per-meal rule says. */
  lemma AccelerateSpeedAfter(meals: nat)
    ensures Accelerate(SpeedAfter(meals)) == SpeedAfter(meals + 1)
  {
  }

  /** The pause never grows as meals accumulate. */
  lemma SpeedAfterMonotone(m: nat, n: nat)
    requires m <= n
    ensures SpeedAfter(n) <= SpeedAfter(m)
  {
  }

  lemma RequestDirectionKeepsValid(s: GameState, d: Direction)
    requires d != Stop
    requires Valid(s)
    ensures Valid(RequestDirection(s, d))
  {
  }

  /** From the stopped state every arrow key is accepted while playing. */
  lemma StoppedAcceptsAnyHeading(s: GameState, d: Direction)
    requires s.mode == Playing && s.direction == Stop && d != Stop
    ensures RequestDirection(s, d) == s.(direction := d)
  {
  }

  lemma TogglePauseKeepsValid(s: GameState)
    requires Valid(s)
    ensures Valid(TogglePause(s))
  {
  }

  lemma TogglePauseTwice(s: GameState)
    ensures TogglePause(TogglePause(s)) == s
  {
  }

  /** A (re)start yields a well-formed state whatever came before it; a start
      key that is ignored keeps a well-formed state well-formed. */
  lemma StartGameValid(s: GameState)
    ensures s.mode == Start || s.mode == GameOver ==> Valid(StartGame(s))
    ensures Valid(s) ==> Valid(StartGame(s))
  {
  }

  lemma StartGameTwice(s: GameState)
    ensures StartGame(StartGame(s)) == StartGame(s)
  {
  }

  /** Ending the game changes only the mode, so it keeps a well-formed state
      well-formed and keeps score, body and high score for the game-over screen. */
  lemma EndGameKeepsValid(s: GameState)
    requires Valid(s)
    ensures Valid(EndGame(s))
    ensures EndGame(s).score == s.score && EndGame(s).highScore == s.highScore
    ensures EndGame(s).body == s.body
  {
  }

  /** The placeholder a meal appends never survives the shift: the new body is
      the old head followed by the whole old body, wherever the placeholder was. */
  lemma ShiftAfterAppend(segs: seq<Pos>, head: Pos, placeholder: Pos)
    ensures Shift(segs + [placeholder], head) == [head] + segs
  {
    var r := Shift(segs + [placeholder], head);
    assert forall i :: 0 < i < |r| ==> r[i] == ([head] + segs)[i];
  }

  /** Without a meal the body keeps its length: the old head in front, the old
      tail dropped. */
  lemma ShiftWithoutAppend(segs: seq<Pos>, head: Pos)
    requires |segs| > 0
    ensures Shift(segs, head) == [head] + segs[..|segs| - 1]
  {
    var r := Shift(segs, head);
    assert forall i :: 0 < i < |r| ==> r[i] == ([head] + segs[..|segs| - 1])[i];
  }

  /** Growth and scoring in one frame: the snake eats exactly when the head,
      before it moves, is closer than a cell to the food. */
  lemma TickMeal(s: GameState, spawn: Pos)
    requires s.mode == Playing && InBounds(spawn)
    ensures var r := Tick(s, spawn);
      && (|r.body| == |s.body| + 1 <==> Near(s.head, s.food))
      && (r.score == s.score + PointsPerFood <==> Near(s.head, s.food))
    ensures var r := Tick(s, spawn);
      Near(s.head, s.food) ==>
        && r.body == [s.head] + s.body
        && r.food == spawn
        && r.speed == Accelerate(s.speed)
        && r.highScore >= r.score
        && (r.highScore == s.highScore || r.highScore == r.score)
    ensures var r := Tick(s, spawn);
      !Near(s.head, s.food) ==>
        && r.body == Shift(s.body, s.head)
        && r.food == s.food && r.score == s.score
        && r.speed == s.speed && r.highScore == s.highScore
  {
    if Near(s.head, s.food) {
      var s1 := if InBounds(s.head) then s else EndGame(s);
      ShiftAfterAppend(s1.body, s1.head, Origin);
    }
  }

  /** How one frame ends: in game over exactly when the head, before moving,
      was past a wall, or when after moving it is closer than a cell to a
      segment; the head moves only when it was inside the walls. */
  lemma TickOutcome(s: GameState, spawn: Pos)
    requires s.mode == Playing && InBounds(spawn)
    ensures var r := Tick(s, spawn);
      r.mode == GameOver <==> !InBounds(s.head) || Collides(r.body, r.head)
    ensures var r := Tick(s, spawn);
      r.head == if InBounds(s.head) then Moved(s.head, s.direction) else s.head
  {
  }

  /** Every segment after a frame was the old head or an old segment. */
  lemma TickBodyFromOld(s: GameState, spawn: Pos)
    requires s.mode == Playing && InBounds(spawn)
    ensures var r := Tick(s, spawn);
      forall i :: 0 < i < |r.body| ==> r.body[i] == s.body[i - 1]
    ensures var r := Tick(s, spawn);
      |r.body| > 0 ==> r.body[0] == s.head
  {
    TickMeal(s, spawn);
  }

  lemma TickKeepsPlaced(s: GameState, spawn: Pos)
    requires Placed(s) && InBounds(spawn)
    ensures Placed(Tick(s, spawn))
  {
    if s.mode == Playing {
      var r := Tick(s, spawn);
      TickOutcome(s, spawn);
      TickBodyFromOld(s, spawn);
      TickMeal(s, spawn);
      if InBounds(s.head) {
        MovedStaysOnGrid(s.head, s.direction);
      }
      forall i | 0 <= i < |r.body|
        ensures OnGrid(r.body[i])
      {
        if i > 0 {
          assert r.body[i] == s.body[i - 1];
        }
      }
    }
  }

  lemma TickKeepsCounted(s: GameState, spawn: Pos)
    requires Counted(s) && InBounds(spawn)
    ensures Counted(Tick(s, spawn))
  {
    if s.mode == Playing {
      TickMeal(s, spawn);
      if Near(s.head, s.food) {
        AccelerateSpeedAfter(|s.body|);
      }
    }
  }

  lemma TickKeepsStandsAtStart(s: GameState, spawn: Pos)
    requires StandsAtStart(s) && InBounds(spawn)
    ensures StandsAtStart(Tick(s, spawn))
  {
    if s.mode == Playing && s.direction == Stop {
      StoppedFrameChangesNothing(s, spawn);
    }
  }

  lemma TickKeepsValid(s: GameState, spawn: Pos)
    requires Valid(s) && InBounds(spawn)
    ensures Valid(Tick(s, spawn))
  {
    TickKeepsPlaced(s, spawn);
    TickKeepsCounted(s, spawn);
    TickKeepsStandsAtStart(s, spawn);
  }

  /** For well-formed states the "closer than a cell" self-collision test is
      exactly "the head is on a segment". */
  lemma TickGameOverIff(s: GameState, spawn: Pos)
    requires Valid(s) && s.mode == Playing && InBounds(spawn)
    ensures var r := Tick(s, spawn);
      r.mode == GameOver <==> !InBounds(s.head) || r.head in r.body
  {
    var r := Tick(s, spawn);
    TickKeepsValid(s, spawn);
    TickOutcome(s, spawn);
    forall i | 0 <= i < |r.body|
      ensures Near(r.body[i], r.head) <==> r.body[i] == r.head
    {
      NearOnGridIsEqual(r.body[i], r.head);
    }
  }

  /** A frame that finds the head past a wall ends the game without moving the
      head, and nothing is eaten on that frame. */
  lemma WallHitFrame(s: GameState, spawn: Pos)
    requires Valid(s) && s.mode == Playing && InBounds(spawn)
    requires !InBounds(s.head)
    ensures var r := Tick(s, spawn);
      && r.mode == GameOver && r.head == s.head
      && r.score == s.score && r.body == Shift(s.body, s.head)
  {
    OutsideIsFarFromInside(s.head, s.food);
    TickMeal(s, spawn);
    TickOutcome(s, spawn);
  }

  /** The food's start cell is several cells from the centre. */
  lemma StartFoodIsFar()
    ensures !Near(Origin, InitialFood)
  {
    assert Square(0 - 100) == 10000;
  }

  /** Until the first arrow key the snake stands still and nothing happens. */
  lemma StoppedFrameChangesNothing(s: GameState, spawn: Pos)
    requires StandsAtStart(s) && s.mode == Playing && s.direction == Stop && InBounds(spawn)
    ensures Tick(s, spawn) == s
  {
    StartFoodIsFar();
    TickMeal(s, spawn);
    TickOutcome(s, spawn);
    var r := Tick(s, spawn);
    assert r.body == [];
    assert r.head == s.head;
    assert !Collides(r.body, r.head);
  }

  /** A self-collision is always with a segment that existed before the frame,
      never with the segment that has just taken the head's old place, and never
      with a freshly appended one. */
  lemma SelfCollisionIsGenuine(s: GameState, spawn: Pos)
    requires Valid(s) && s.mode == Playing && InBounds(spawn)
    requires InBounds(s.head)
    ensures Tick(s, spawn).mode == GameOver ==> Tick(s, spawn).head in s.body
    ensures Tick(s, spawn).mode == GameOver ==> Tick(s, spawn).head != s.head
  {
    var r := Tick(s, spawn);
    if r.mode == GameOver {
      if s.direction == Stop {
        StoppedFrameChangesNothing(s, spawn);
        assert false;
      }
      TickGameOverIff(s, spawn);
      TickOutcome(s, spawn);
      TickBodyFromOld(s, spawn);
      var i :| 0 <= i < |r.body| && r.body[i] == r.head;
      assert r.head != s.head;
      assert i > 0;
      assert s.body[i - 1] == r.head;
    }
  }
}

=== FILE: scenarios.dfy ===
/** Short concrete games that pin down the observable order of a frame. */
module Scenarios {
  import opened Geometry
  import opened Game
  import opened Session
  import Invariants

  /** Start the game and let frames pass without an arrow key: the head stays at
      the centre and the game keeps running. */
  lemma IdleAfterStart(spawn: Pos)
    requires InBounds(spawn)
    ensures var s := Run(Init(), [SpaceKey, Frame(spawn), Frame(spawn)]);
      s.mode == Playing && s.head == Origin && s.body == [] && s.score == 0
  {
    var es := [SpaceKey, Frame(spawn), Frame(spawn)];
    var s0 := StartGame(Init());
    Invariants.StoppedFrameChangesNothing(s0, spawn);
    assert es[1..] == [Frame(spawn), Frame(spawn)];
    assert es[1..][1..] == [Frame(spawn)];
    assert Run(Init(), es) == Run(s0, es[1..]);
    assert Run(s0, es[1..]) == Run(s0, [Frame(spawn)]);
    assert Run(s0, [Frame(spawn)]) == Run(s0, []);
  }

  /** Heading right from the centre with the food one cell ahead. */
  const FoodAhead: GameState := GameState(Playing, Origin, Right, [], Pos(20, 0), 0, 0, BaseSpeed)

  /** The same snake one cell further on, its head on the food. */
  const OnFood: GameState := FoodAhead.(head := Pos(20, 0))

  /** First frame: the head, one cell from the food, is not yet close enough to
      eat; it moves onto the food. */
  lemma ArriveAtFood(spawn: Pos)
    requires InBounds(spawn)
    ensures Tick(FoodAhead, spawn) == OnFood
  {
    assert !Near(Origin, Pos(20, 0)) by {
      assert Square(0 - 20) == 400;
    }
    Invariants.TickMeal(FoodAhead, spawn);
    Invariants.TickOutcome(FoodAhead, spawn);
  }

  /** Second frame: a head on the food, heading right, eats it and moves on:
      score 10, one segment where the head was, the pause one step shorter. */
  lemma EatOnFood(s: GameState, spawn: Pos)
    requires InBounds(spawn)
    requires s.mode == Playing && s.direction == Right && s.head == s.food && InBounds(s.head)
    requires s.body == [] && s.score == 0 && s.highScore == 0 && s.speed == BaseSpeed
    ensures var t := Tick(s, spawn);
      && t.mode == Playing && t.head == Pos(s.head.x + Cell, s.head.y)
      && t.body == [s.head] && t.food == spawn
      && t.score == 10 && t.highScore == 10 && t.speed == 95
  {
    assert SqDist(s.head, s.food) == 0;
    Invariants.TickMeal(s, spawn);
    Invariants.TickOutcome(s, spawn);
    var t := Tick(s, spawn);
    assert !Near(s.head, t.head) by {
      assert s.head.x - t.head.x == -20 && s.head.y - t.head.y == 0;
      assert Square(-20) == 400;
    }
  }

  /** The food check looks at the head before it moves, so a meal is scored
      one frame after the head reaches the food. */
  lemma MealOneFrameAfterArrival(spawn: Pos)
    requires InBounds(spawn)
    ensures Tick(FoodAhead, spawn).score == 0
    ensures Tick(Tick(FoodAhead, spawn), spawn).score == 10
  {
    ArriveAtFood(spawn);
    EatOnFood(OnFood, spawn);
  }

  /** The wall check also looks at the head before it moves: stepping from the
      last cell to one past the wall is allowed, and the next frame ends the
      game without moving the head further. */
  lemma WallHitOneFrameLate(spawn: Pos)
    requires InBounds(spawn)
    ensures var s := GameState(Playing, Pos(280, 0), Right, [], InitialFood, 0, 0, BaseSpeed);
      var t1 := Tick(s, spawn);
      var t2 := Tick(t1, spawn);
      && t1.mode == Playing && t1.head == Pos(300, 0)
      && t2.mode == GameOver && t2.head == Pos(300, 0)
  {
    var s := GameState(Playing, Pos(280, 0), Right, [], InitialFood, 0, 0, BaseSpeed);
    assert !Near(Pos(280, 0), InitialFood) by {
      assert Square(280 - 0) == 78400;
    }
    assert !Near(Pos(300, 0), InitialFood) by {
      assert Square(300 - 0) == 90000;
    }
  }

  /** A restart after a game over clears the game but keeps the high score. */
  lemma RestartKeepsHighScore()
    ensures var s := GameState(GameOver, Pos(300, 0), Right, [Pos(280, 0)], Pos(-40, 60), 10, 30, 95);
      var t := Apply(s, SpaceKey);
      && t.mode == Playing && t.score == 0 && t.body == [] && t.speed == BaseSpeed
      && t.highScore == 30
  {
  }
}

=== FILE: session.dfy ===
/** A whole session: key presses and frames of the main loop, each applied
    atomically, in the order they happen. */
module Session {
  import opened Geometry
  import opened Game
  import opened Invariants

  /** A key press, or one frame of the main loop with the food cell the two
      random draws would produce on that frame. */
  datatype Event = Steer(d: Direction) | PauseKey | SpaceKey | Frame(spawn: Pos)

  /** Events the program can actually produce: there is no key for `Stop`, and
      the random draws stay inside the walls. */
  predicate Admissible(e: Event)
  {
    match e
    case Steer(d) => d != Stop
    case Frame(spawn) => InBounds(spawn)
    case _ => true
  }

  function Apply(s: GameState, e: Event): (r: GameState)
    requires Admissible(e)
    ensures r.highScore >= s.highScore
    ensures e.Frame? || r.speed == s.speed || r.speed == BaseSpeed
    ensures e.Steer? || e.PauseKey? ==> r.speed == s.speed
  {
    match e
    case Steer(d) => RequestDirection(s, d)
    case PauseKey => TogglePause(s)
    case SpaceKey => StartGame(s)
    case Frame(spawn) => Tick(s, spawn)
  }

  function Run(s: GameState, es: seq<Event>): (r: GameState)
    requires forall i :: 0 <= i < |es| ==> Admissible(es[i])
    ensures r.highScore >= s.highScore
    decreases |es|
  {
    if |es| == 0 then s else Run(Apply(s, es[0]), es[1..])
  }

  lemma ApplyKeepsValid(s: GameState, e: Event)
    requires Valid(s) && Admissible(e)
    ensures Valid(Apply(s, e))
  {
    match e
    case Steer(d) => RequestDirectionKeepsValid(s, d);
    case PauseKey => TogglePauseKeepsValid(s);
    case SpaceKey => StartGameValid(s);
    case Frame(spawn) => TickKeepsValid(s, spawn);
  }

  lemma {:induction false} RunKeepsValid(s: GameState, es: seq<Event>)
    requires Valid(s)
    requires forall i :: 0 <= i < |es| ==> Admissible(es[i])
    ensures Valid(Run(s, es))
    decreases |es|
  {
    if |es| > 0 {
      ApplyKeepsValid(s, es[0]);
      RunKeepsValid(Apply(s, es[0]), es[1..]);
    }
  }

  /** Every state a session reaches from the opening screen ties the score to
      the body length and the speed, keeps it below the high score, and keeps
      the speed between the floor and the start value. */
  lemma SessionFromInit(es: seq<Event>)
    requires forall i :: 0 <= i < |es| ==> Admissible(es[i])
    ensures var r := Run(Init(), es);
      && r.score == PointsPerFood * |r.body|
      && r.score <= r.highScore
      && MinSpeed <= r.speed <= BaseSpeed
  {
    InitValid();
    RunKeepsValid(Init(), es);
  }

  /** While paused, only the pause key does anything: any number of frames,
      arrow keys and start key presses change nothing. */
  lemma {:induction false} PausedIgnoresAllButPauseKey(s: GameState, es: seq<Event>)
    requires s.mode == Paused
    requires forall i :: 0 <= i < |es| ==> Admissible(es[i]) && !es[i].PauseKey?
    ensures Run(s, es) == s
    decreases |es|
  {
    if |es| > 0 {
      assert Apply(s, es[0]) == s;
      PausedIgnoresAllButPauseKey(s, es[1..]);
    }
  }

  /** After a game over (and on the start screen) only the start key does anything. */
  lemma OnlyStartLeavesGameOver(s: GameState, e: Event)
    requires s.mode == GameOver || s.mode == Start
    requires Admissible(e) && !e.SpaceKey?
    ensures Apply(s, e) == s
  {
  }

  /** A head that turns straight back onto the segment behind it runs into it
      on the next frame: after the shift that segment sits one place further
      back, exactly where the head arrives. */
  lemma TurnIntoNeckCollides(s: GameState, spawn: Pos)
    requires s.mode == Playing && InBounds(spawn) && InBounds(s.head)
    requires |s.body| >= 2 && s.body[0] == Moved(s.head, s.direction)
    ensures Tick(s, spawn).mode == GameOver && Tick(s, spawn).head == s.body[0]
  {
    TickMeal(s, spawn);
    TickOutcome(s, spawn);
    TickBodyFromOld(s, spawn);
    var r := Tick(s, spawn);
    assert r.body[1] == r.head;
    assert SqDist(r.body[1], r.head) == 0;
  }

  /** With one segment and no meal a reversal is harmless: the shift moves the
      segment onto the old head, one cell behind where the head arrives. */
  lemma OneSegmentSurvivesReversal(s: GameState, spawn: Pos)
    requires s.mode == Playing && InBounds(spawn) && InBounds(s.head)
    requires s.direction != Stop && |s.body| == 1 && !Near(s.head, s.food)
    ensures Tick(s, spawn).mode == Playing
    ensures Tick(s, spawn).body == [s.head]
  {
    TickMeal(s, spawn);
    TickOutcome(s, spawn);
    ShiftWithoutAppend(s.body, s.head);
    var r := Tick(s, spawn);
    NearWithinCell(r.body[0], r.head);
  }

  /** Heading up with two segments behind the head. */
  const Climbing: GameState :=
    GameState(Playing, Origin, Up, [Pos(0, -20), Pos(0, -40)], InitialFood, 20, 20, 90)

  /** The no-reversal rule looks only at the current heading, so it holds for
      one key at a time: a single Down key is refused, but Left followed by Down
      before the next frame turns the snake back onto itself and ends the game. */
  lemma TwoKeysReverseBetweenFrames(spawn: Pos)
    requires InBounds(spawn)
    ensures Apply(Climbing, Steer(Down)) == Climbing
    ensures var t := Run(Climbing, [Steer(Left), Steer(Down), Frame(spawn)]);
      t.direction == Down && t.mode == GameOver && t.head == Pos(0, -20)
  {
    var es := [Steer(Left), Steer(Down), Frame(spawn)];
    var s2 := Climbing.(direction := Down);
    assert es[1..] == [Steer(Down), Frame(spawn)];
    assert es[1..][1..] == [Frame(spawn)];
    assert Run(Climbing, es) == Run(Climbing.(direction := Left), es[1..]);
    assert Run(Climbing.(direction := Left), es[1..]) == Run(s2, [Frame(spawn)]);
    assert Run(s2, [Frame(spawn)]) == Tick(s2, spawn);
    TurnIntoNeckCollides(s2, spawn);
  }
}
